=== FILE: README.md ===
# Salary slip generator — a Dafny model

The generator reads a spreadsheet. Its first row holds the headers; each later row describes one employee. For every employee it:

1. builds the record `dict(zip(headers, row))`;
2. loads a fresh copy of a Word template;
3. replaces every `{Header}` placeholder with the employee's value in each text run, first in the body paragraphs and then in the paragraphs of every table cell;
4. saves the result as `<Name>_Salary_Slip.docx`, where `<Name>` is the sanitised `Name` field (`Employee` when there is none);
5. asks an office application to convert it to `<Name>_Salary_Slip.pdf`.

This project models that core in Dafny and proves properties of it.

The modules follow the program's structure:

- `Text` (text.dfy) models Python's `in`, `str.find` and `str.replace` on strings.
- `Records` (records.dfy) models `dict(zip(headers, row))` as an association list kept in insertion order.
- `Templates` (templates.dfy) models the template reduced to what the generator touches: body paragraphs, and the cell paragraphs of top-level tables, as sequences of runs. It also models the run-by-run substitution.
- `Naming` (naming.dfy) models the sanitised display name and the two output file names.
- `Driver` (driver.dfy) models the top-level loop over the data rows and the output directory the saves leave behind.
- `Scenarios` (scenarios.dfy) proves the documented examples against the definitions.

The sheet fetch is an input: `None` when it failed. The PDF conversion is an oracle that says, for each processed row, whether the `.pdf` was produced.

## Behaviour worth knowing

- Runs of whitespace in a name are not collapsed. The sanitiser strips punctuation and then replaces each single space with one `_`. So `"A  B"` gives `A__B`, and tabs and newlines survive (`Naming.SanitizeIsPerCharacter`, `Scenarios.SpacesNotCollapsed`).
- A sheet with only its header row passes `if data:`. It is processed, yields no slip and prints nothing (`Driver.RunBatch`: the outcome is `Processed([], false)`, not `NoData`).
- The order of the record's items matters. The items are applied one after another to the already-rewritten run, so a value that contains a later key's token gets filled in too (`Scenarios.ItemOrderMatters`).
- The program runs on Windows only (COM automation of Word, a `C:\` output directory). Windows compares file names without regard to letter case, so rows named `Alice` and `ALICE` write one file, and the later row's document wins (`Driver.CaseVariantOverwrites`, `Scenarios.CaseVariantsShareFile`).
- Windows refuses control characters in file names, and the sanitiser keeps every whitespace character except the space. A name holding a tab or newline makes `template.save` raise. Nothing catches the exception, so the run ends at that row (`Naming.SaveableIff`, `Driver.RunBatch`).

## Model

| member | source | states |
|---|---|---|
| Text.Contains | generate.py:63 | Python's `in`: a match can only start where the token fits; `Text.ContainsIffOccurs` shows it holds exactly when the token occurs at some position |
| Text.Find | generate.py:63-64 | a reference helper, not called by the generator: the leftmost occurrence of the token, and none exactly when the `in` test fails; `Text.SpliceAll` uses it to restate `replace` |
| Text.ContainsIffOccurs | generate.py:63 | the `in` test holds exactly when the token occurs at some position of the run |
| Text.ReplaceAll | generate.py:64 | `replace` leaves a text with no occurrence unchanged, and a self-replacement changes nothing |
| Text.CountOccurrences | generate.py:64 | a reference helper, not called by the generator: the number of non-overlapping occurrences `replace` rewrites, positive exactly when the token occurs; `Text.ReplaceAllLength` uses it |
| Text.ReplaceAllIsSpliceAll | generate.py:64 | the left-to-right scan equals the find-and-splice reference: find the leftmost occurrence, splice in the value, continue after it |
| Text.ReplaceAllLength | generate.py:64 | the replaced text's length is the original length plus one length difference per non-overlapping occurrence |
| Text.ReplaceAllUnchangedIff | generate.py:63-64 | `replace` changes nothing exactly when the token is absent or is replaced by itself |
| Text.ReplaceAllCopiesPrefix | generate.py:64 | text in which the token cannot start is copied verbatim and replacement continues after it |
| Text.ReplaceAllAtPattern | generate.py:64 | an occurrence at the front becomes the value, and the scan resumes right after the occurrence |
| Records.Lookup | generate.py:77 | a key's value is found exactly when the key is in the record, and it is the value of an item with that key |
| Records.Get | generate.py:77 | `get` returns the default exactly when the key is absent, and the stored value otherwise |
| Records.Put | generate.py:57 | assigning a key makes it map to the new value and leaves every other key's lookup unchanged |
| Records.PutKeys | generate.py:57 | assignment keeps an existing key in place and appends a new key at the end |
| Records.FromPairs | generate.py:57 | a dict built from pairs never holds a key twice |
| Records.Zip | generate.py:57 | `zip` pairs position by position and stops at the shorter list |
| Records.Dedup | generate.py:57 | removing repeats keeps exactly the same elements and leaves no duplicate |
| Records.DedupFirstOccurrenceOrder | generate.py:57 | the deduplicated keys are ordered by first occurrence |
| Records.FromPairsKeys | generate.py:57 | the dict's keys are the pair keys with repeats dropped, in first-insertion order |
| Records.FromPairsLookup | generate.py:57 | a key's value in the dict comes from the LAST pair with that key |
| Records.BuildRecord | generate.py:57 | the record of a row never holds a key twice |
| Records.BuildRecordSpec | generate.py:57 | only the first min(headers, row) positions are paired; a repeated header keeps its first position and takes its last cell |
| Templates.Token | generate.py:63 | the placeholder is the key wrapped in one `{` and one `}` |
| Templates.SubstituteStep | generate.py:63-64 | one item of the innermost loop: the run's length changes by the length difference once per non-overlapping occurrence, and a value equal to its own token changes nothing |
| Templates.SubstituteRun | generate.py:62-64 | the loop over the record's items; a record that maps every key to its own token leaves the run unchanged. `Templates.GuardIsRedundant`, `Templates.NoTokenRunUnchanged` and `Templates.TwoPlaceholdersFill` characterise it further |
| Templates.Render | generate.py:60-74 | the filled document keeps its number of body paragraphs, tables and runs per paragraph. `Templates.RenderPreservesShape` and `Templates.RenderIsRunLocal` characterise it further |
| Templates.RenderPreservesShape | generate.py:60-74 | substitution adds, drops or moves no paragraph, table, row, cell or run, and leaves nested tables alone |
| Templates.RenderIsRunLocal | generate.py:60-74 | every body run and every table-cell run becomes the substitution of its own old text, independent of all other runs |
| Templates.TableCellsMatchBody | generate.py:67-74 | a paragraph inside a table cell is filled exactly as it would be in the body |
| Templates.GuardIsRedundant | generate.py:62-64 | the guarded loop (`in` test, then `replace`) equals an unguarded fold of `replace` |
| Templates.NoTokenRunUnchanged | generate.py:62-64 | a run that holds no token of any record key is unchanged |
| Templates.NoBraceNoToken | generate.py:63 | a run lacking `{` or lacking `}` holds no token |
| Templates.BracelessRunUnchanged | generate.py:60-64 | a run lacking `{` or lacking `}` passes through any record unchanged |
| Templates.SplitTokenNotSubstituted | generate.py:61-64 | for a brace-free name, a token cut across two runs is substituted in neither run, whatever the record |
| Templates.UnknownPlaceholderSurvives | generate.py:62-64 | a placeholder whose name is brace-free and not a header stays verbatim |
| Templates.OtherTokenAbsent | generate.py:63 | a brace-free placeholder holds no other key's token |
| Templates.TokenNotPrefix | generate.py:63-64 | for two different brace-free names, neither token is a prefix of the other token followed by anything |
| Templates.TwoPlaceholdersFill | generate.py:62-64 | two distinct brace-free placeholders in one run, in record order, are each replaced by their own value and the surrounding text is kept, provided neither the surrounding text nor the first value holds a `{` |
| Templates.EmptyRecordIsIdentity | generate.py:57-74 | with an empty record (no cell paired) the filled document equals the template |
| Naming.StripPunctuation | generate.py:77 | stripping only shortens, and keeps only word and whitespace characters |
| Naming.SpacesToUnderscores | generate.py:77 | replacing spaces keeps the length and leaves no space |
| Naming.Sanitize | generate.py:77 | the stem is no longer than the name and holds only word characters and non-space whitespace |
| Naming.SanitizeIsPerCharacter | generate.py:77 | the two passes equal one per-character map: a space becomes one `_`, a word or whitespace character is kept, anything else is dropped |
| Naming.SanitizeAppend | generate.py:77 | sanitising distributes over concatenation |
| Naming.PunctuationDropped | generate.py:77 | a punctuation character vanishes wherever it stands |
| Naming.SpaceBecomesUnderscore | generate.py:77 | each single space becomes exactly one underscore wherever it stands (no collapsing) |
| Naming.UnderscoreCount | generate.py:77 | the stem has as many `_` as the name had `_` and spaces together |
| Naming.SanitizeIdempotent | generate.py:77 | sanitising a stem again changes nothing |
| Naming.SanitizeFixesClean | generate.py:77 | a name of word characters and non-space whitespace is its own stem |
| Naming.SanitizedIsPathSafe | generate.py:77 | the stem holds no `/`, `\`, `:` or `.`; whitespace controls can remain (`Naming.SaveableIff`) |
| Naming.DisplayName | generate.py:77 | the display name is `Employee` when there is no `Name` column, and otherwise the record's `Name` value |
| Naming.DocxName | generate.py:77-80 | the `.docx` name is exactly the sanitised name, then `_Salary_Slip`, then `.docx`: prefix, middle and extension are each pinned, and the length adds up |
| Naming.PdfName | generate.py:93 | the `.pdf` name is exactly the sanitised name, then `_Salary_Slip`, then `.pdf`: prefix, middle and extension are each pinned, and the length adds up |
| Naming.OutputNamesShareStem | generate.py:80-93 | the `.docx` and `.pdf` names share their stem, start with the sanitised name, and never coincide |
| Naming.OutputNamesCollideIff | generate.py:77-93 | two records get the same output names exactly when their sanitised names agree |
| Naming.StemValidIff | generate.py:77-81 | Windows accepts the stem as a file name exactly when the name holds no whitespace other than the space |
| Naming.SaveableIff | generate.py:77-93 | the `.docx` can be saved exactly when the `.pdf` can, and exactly when the display name holds no whitespace other than the space |
| Naming.OutputFilesDistinct | generate.py:80-93 | a record's `.docx` and `.pdf` are two different files even when letter case is ignored |
| Naming.OutputFilesCollideIff | generate.py:77-93 | two records write the same `.docx` file, and the same `.pdf` file, exactly when their sanitised names agree up to letter case |
| Driver.GenerateSlip | generate.py:52-94 | one row's slip: its record is `dict(zip(headers, row))`, its document is the template filled with that record and keeps the template's shape, and its names derive from the record |
| Driver.SlipsOfRowsSnoc | generate.py:113-114 | processing the next data row extends the slips of the rows before it by that row's slip |
| Driver.RunBatch | generate.py:109-116 | there is no data exactly when the fetch failed or the sheet is empty; otherwise the data rows yield their slips in sheet order, each with its own conversion result and a saveable name, and the run halts exactly at the first row whose `.docx` name Windows refuses |
| Driver.LastWriter | generate.py:113-114 | the last slip that writes a name, or none when no slip writes it |
| Driver.Publish | generate.py:80-94 | saving a slip adds the files of its `.docx` and, if converted, its `.pdf` to the directory, with the `.docx` holding the filled document, and adds no other file |
| Driver.PublishEffect | generate.py:80-94 | saving a slip sets the files it writes to its artifacts and leaves every other file alone; names that differ only in letter case are one file |
| Driver.LastWriterWins | generate.py:80-94 | after the run each file holds what the last slip writing it wrote, letter case ignored; files no slip writes are untouched, and a stale `.pdf` may remain |
| Driver.EveryDocxPublished | generate.py:81 | every processed row's `.docx` is in the directory after the run, whether or not its conversion succeeded |
| Driver.CaseVariantOverwrites | generate.py:77-81 | of two rows whose sanitised names agree up to letter case, the file holds the later row's document |
| Scenarios.SinglePlaceholder | generate.py:60-64 | `{Name}` with `Name -> Alice` becomes `Alice` |
| Scenarios.RepeatedPlaceholder | generate.py:64 | `{Name} {Name}` with `Name -> Bob` becomes `Bob Bob` |
| Scenarios.UnknownPlaceholder | generate.py:62-64 | `{Unknown}` stays when `Unknown` is not a header |
| Scenarios.SplitAcrossRuns | generate.py:61-64 | runs `{Na` and `me}` come back unchanged |
| Scenarios.ItemOrderMatters | generate.py:62-64 | a value that holds a later key's token is filled in too, but a value that holds an earlier key's token is not |
| Scenarios.DuplicateHeader | generate.py:57 | headers `Name, Basic, Name` give `Name` the last cell, in the first position |
| Scenarios.ShortRow | generate.py:57 | a row shorter than the headers leaves the trailing headers unpaired |
| Scenarios.PunctuationStripped | generate.py:77 | `O'Brien, J.!!` gives the stem `OBrien_J` |
| Scenarios.SpacesNotCollapsed | generate.py:77 | `A  B` gives `A__B`, and a tab survives |
| Scenarios.SeparatorKept | generate.py:77 | the separator U+001C counts as whitespace and survives in the stem |
| Scenarios.CaseVariantsShareFile | generate.py:77-81 | `Alice` and `ALICE` give different stems but the same file on Windows |
| Scenarios.TabNameNotSaveable | generate.py:77-81 | the stem of `A<tab>B` keeps the tab, so Windows refuses it |
| Scenarios.MissingNameColumn | generate.py:77-93 | without a `Name` column both outputs are named `Employee_Salary_Slip` |
| Scenarios.FillSentence | generate.py:60-64 | `Dear {Name}, your basic pay is {Basic}.` is filled with both of the row's values, for a name without `{` |
| Scenarios.FilledSlip | generate.py:52-93 | for a name of word characters only, a row `[name, pay]` under headers `Name, Basic` yields the filled sentence and the files `<name>_Salary_Slip.docx` and `.pdf` |

## Left out

- Fetching the sheet (generate.py:10-31) talks to the network and a credentials file. Its result is the `fetched` input of `Driver.RunBatch`, with `None` standing for any failure.
- Converting to PDF (generate.py:34-49) is Word automation through COM. It is the `converts` oracle, indexed by data row.
- Loading and saving the document (generate.py:54, 81) are file I/O. The template is a value, and saving is `Driver.Publish` into a map from case-folded file names to artifacts.
- The existence check after saving (generate.py:83-86) cannot fail in a model whose save either writes the file or raises. A save that silently fails, with its skipped conversion, is not modelled.
- `time.sleep` (generate.py:90) and every `print` have no effect on the outputs.
- `os.makedirs` (generate.py:104) and the `output_dir` prefix of `os.path.join` (generate.py:80, 93) are not modelled: the names are file names within the one output directory.
- The fixed configuration literals (generate.py:97-101) are not modelled.
- Python's `\w` and `\s` are Unicode-aware. Here they are read on the ASCII range only: `\w` is a letter, digit or `_`; `\s` is space, tab, newline, carriage return, vertical tab, form feed and the separators U+001C to U+001F. Non-ASCII letters, digits and whitespace are not modelled.
- python-docx's document structure is reduced to runs in paragraphs, in cells, in rows, in tables. Headers, footers, text boxes and nested tables are not visited by the source either; nested tables are kept unchanged in the model. A merged cell that python-docx yields more than once from `row.cells` is modelled as visited once.
- Text.ReplaceAll: requires a non-empty search string. Python's `replace` with an empty pattern is not modelled, because a placeholder always contains at least its two braces.
- Driver.RunBatch: models only one exception, the save of a name Windows refuses. Any other exception inside a row's processing (an unreadable template, a full disk, a name too long for the path) would also end the whole run, and is not modelled.
- Driver.LastWriterWins: a file keeps one letter case for its name on Windows; which case is displayed is not modelled, only the content under the case-folded name. Case folding covers ASCII letters only, which is all a stem can hold here.
- Templates.GuardIsRedundant: assigning `run.text` (generate.py:64, 74) rebuilds the run in python-docx. A page break or drawing in a run that holds a placeholder is dropped, and a `\r` in a value reads back as `\n`. The model keeps only a run's text, so the guard is redundant for that text only.

=== FILE: driver.dfy ===
/**
 The top-level driver (generate.py:106-116) and the per-row body of
 `generate_salary_slip` (52-94): split the fetched sheet into a header row
 and data rows, then for each data row, in order, build the record, fill
 a freshly loaded template, name the outputs, save the `.docx` and hand it
 to the converter for the `.pdf`.

 The sheet fetch is an input (`None` when it failed); the converter is an
 oracle saying, per processed row, whether it produced the `.pdf`.
 */
module Driver {
  import opened Text
  import opened Records
  import opened Templates
  import opened Naming

  /** All cell values of the sheet, header row first. */
  type Sheet = seq<seq<string>>

  /** What one processed data row leaves behind. */
  datatype Slip = Slip(record: Record, filled: Document, docx: string, pdf: string, converted: bool)

  /** Slip names as the driver produces them. */
  predicate WellNamed(s: Slip)
  {
    s.docx == DocxName(s.record) && s.pdf == PdfName(s.record)
  }

  /**
   The run: nothing was fetched, or the data rows were processed in order
   until one of them could not be saved (`halted`), or to the end.
   */
  datatype Outcome = NoData | Processed(slips: seq<Slip>, halted: bool)

  /**
   `generate_salary_slip(template_path, output_dir, row, headers)` for one
   row: the record of the row, a fresh copy of the template filled with it,
   and the two names derived from it.
   */
  function GenerateSlip(template: Document, headers: seq<string>, row: seq<string>, converted: bool): (s: Slip)
    ensures s.record == BuildRecord(headers, row)
    ensures s.filled == Render(s.record, template) && SameShape(s.filled, template)
    ensures WellNamed(s)
    ensures s.converted == converted
  {
    var rec := BuildRecord(headers, row);
    RenderPreservesShape(rec, template);
    Slip(rec, Render(rec, template), DocxName(rec), PdfName(rec), converted)
  }

  /** `template.save` succeeds for the slip's `.docx`, and so for its `.pdf`. */
  predicate Saveable(s: Slip)
  {
    ValidFileName(s.docx)
  }

  /** `slips` are the slips of the first `n` data rows, in order, each of them saveable. */
  predicate SlipsOfRows(slips: seq<Slip>, template: Document, data: Sheet, converts: nat -> bool, n: nat)
    requires 0 < |data| && n < |data|
  {
    && |slips| == n
    && forall j :: 0 <= j < n ==> slips[j] == GenerateSlip(template, data[0], data[j + 1], converts(j)) && Saveable(slips[j])
  }

  lemma SlipsOfRowsSnoc(slips: seq<Slip>, template: Document, data: Sheet, converts: nat -> bool, n: nat)
    requires 0 < |data| && n + 1 < |data|
    requires SlipsOfRows(slips, template, data, converts, n)
    requires Saveable(GenerateSlip(template, data[0], data[n + 1], converts(n)))
    ensures SlipsOfRows(slips + [GenerateSlip(template, data[0], data[n + 1], converts(n))], template, data, converts, n + 1)
  {
    var next := slips + [GenerateSlip(template, data[0], data[n + 1], converts(n))];
    forall j | 0 <= j < n + 1
      ensures next[j] == GenerateSlip(template, data[0], data[j + 1], converts(j)) && Saveable(next[j])
    {
      if j < n {
        assert next[j] == slips[j];
      }
    }
  }

  /**
   The driver. `if data:` treats both a failed fetch and an empty sheet as
   no data; otherwise row 0 is the header row and the later rows yield one
   slip each, in sheet order, each from an unchanged template. A sheet
   holding only its header row is processed and yields no slip. A row
   whose `.docx` name Windows refuses makes `template.save` raise; nothing
   catches that, so the run ends there with the slips of the rows before it.
   */
  method RunBatch(fetched: Option<Sheet>, template: Document, converts: nat -> bool) returns (out: Outcome)
    ensures out.NoData? <==> (fetched.None? || |fetched.value| == 0)
    ensures out.Processed? ==> |out.slips| <= |fetched.value| - 1
    ensures out.Processed? ==> (out.halted <==> |out.slips| < |fetched.value| - 1)
    ensures out.Processed? && out.halted ==>
      !ValidFileName(DocxName(BuildRecord(fetched.value[0], fetched.value[|out.slips| + 1])))
    ensures out.Processed? ==> forall i :: 0 <= i < |out.slips| ==>
      && out.slips[i] == GenerateSlip(template, fetched.value[0], fetched.value[i + 1], converts(i))
      && ValidFileName(out.slips[i].docx)
  {
    if fetched.None? || |fetched.value| == 0 {
      return NoData;
    }
    var data := fetched.value;
    var slips: seq<Slip> := [];
    var i := 0;
    var halted := false;
    while i < |data| - 1 && !halted
      invariant 0 <= i <= |data| - 1
      invariant SlipsOfRows(slips, template, data, converts, i)
      invariant halted ==> i < |data| - 1 && !Saveable(GenerateSlip(template, data[0], data[i + 1], converts(i)))
      decreases |data| - 1 - i, if halted then 0 else 1
    {
      var slip := GenerateSlip(template, data[0], data[i + 1], converts(i));
      if !Saveable(slip) {
        halted := true;
      } else {
        SlipsOfRowsSnoc(slips, template, data, converts, i);
        slips := slips + [slip];
        i := i + 1;
      }
    }
    out := Processed(slips, halted);
  }

  // ----- The output directory -----

  /** A file in the output directory: a filled `.docx`, or the `.pdf` rendition of one. */
  datatype Artifact = Editable(doc: Document) | Rendition(doc: Document)

  /**
   The output directory, keyed by `FoldCase` of the file name: Windows
   treats names that differ only in letter case as one file.
   */
  type Directory = map<string, Artifact>

  /** Saving to `a` and saving to `b` touch the same file. */
  predicate SameFile(a: string, b: string)
  {
    FoldCase(a) == FoldCase(b)
  }

  /** The files one slip writes: its `.docx` always, its `.pdf` only if the conversion succeeded. */
  predicate Writes(s: Slip, name: string)
  {
    SameFile(name, s.docx) || (s.converted && SameFile(name, s.pdf))
  }

  /** The artifact a slip writes under `name`. */
  function ArtifactOf(s: Slip, name: string): Artifact
  {
    if SameFile(name, s.docx) then Editable(s.filled) else Rendition(s.filled)
  }

  /** Saving one slip's files, overwriting whatever file had the same name (generate.py:81, 94). */
  function Publish(dir: Directory, s: Slip): (d: Directory)
    ensures d.Keys == dir.Keys + {FoldCase(s.docx)} + (if s.converted then {FoldCase(s.pdf)} else {})
    ensures !(s.converted && SameFile(s.docx, s.pdf)) ==> d[FoldCase(s.docx)] == Editable(s.filled)
    ensures s.converted ==> d[FoldCase(s.pdf)] == Rendition(s.filled)
  {
    var d := dir[FoldCase(s.docx) := Editable(s.filled)];
    if s.converted then d[FoldCase(s.pdf) := Rendition(s.filled)] else d
  }

  /** Saving the slips one after another. */
  function PublishAll(dir: Directory, slips: seq<Slip>): Directory
    decreases |slips|
  {
    if |slips| == 0 then dir
    else Publish(PublishAll(dir, slips[..|slips| - 1]), slips[|slips| - 1])
  }

  /** The last slip that writes `name`. */
  function LastWriter(slips: seq<Slip>, name: string): (r: Option<nat>)
    ensures r.None? <==> forall i :: 0 <= i < |slips| ==> !Writes(slips[i], name)
    ensures r.Some? ==> r.value < |slips| && Writes(slips[r.value], name)
    ensures r.Some? ==> forall j :: r.value < j < |slips| ==> !Writes(slips[j], name)
    decreases |slips|
  {
    if |slips| == 0 then None
    else if Writes(slips[|slips| - 1], name) then Some(|slips| - 1)
    else LastWriter(slips[..|slips| - 1], name)
  }

  /**
   No versioning: after the run, every file holds what the LAST slip
   writing it wrote; files no slip writes are as they were. In particular a
   later record whose sanitised name equals an earlier one's up to letter
   case silently replaces the earlier one's files, and a `.pdf` may be left
   from an earlier record when a later conversion failed.
   */
  lemma {:induction false} LastWriterWins(dir: Directory, slips: seq<Slip>, name: string)
    requires forall i :: 0 <= i < |slips| ==> WellNamed(slips[i])
    ensures match LastWriter(slips, name)
      case None =>
        && (FoldCase(name) in PublishAll(dir, slips) <==> FoldCase(name) in dir)
        && (FoldCase(name) in dir ==> PublishAll(dir, slips)[FoldCase(name)] == dir[FoldCase(name)])
      case Some(j) =>
        && FoldCase(name) in PublishAll(dir, slips)
        && PublishAll(dir, slips)[FoldCase(name)] == ArtifactOf(slips[j], name)
    decreases |slips|
  {
    if |slips| > 0 {
      var n := |slips| - 1;
      var prefix := slips[..n];
      var last := slips[n];
      assert forall i :: 0 <= i < n ==> prefix[i] == slips[i];
      LastWriterWins(dir, prefix, name);
      PublishEffect(PublishAll(dir, prefix), last, name);
      if !Writes(last, name) {
        LastWriterSkip(slips, name);
      }
    }
  }

  lemma LastWriterSkip(slips: seq<Slip>, name: string)
    requires |slips| > 0 && !Writes(slips[|slips| - 1], name)
    ensures LastWriter(slips, name) == LastWriter(slips[..|slips| - 1], name)
  {
  }

  /** Saving one slip sets exactly the files it writes, to what it writes, and leaves other files alone. */
  lemma PublishEffect(dir: Directory, s: Slip, name: string)
    requires WellNamed(s)
    ensures Writes(s, name) ==> FoldCase(name) in Publish(dir, s) && Publish(dir, s)[FoldCase(name)] == ArtifactOf(s, name)
    ensures !Writes(s, name) ==> (FoldCase(name) in Publish(dir, s) <==> FoldCase(name) in dir)
    ensures !Writes(s, name) && FoldCase(name) in dir ==> Publish(dir, s)[FoldCase(name)] == dir[FoldCase(name)]
  {
    OutputFilesDistinct(s.record);
  }

  /** Every processed row's `.docx` is in the directory after the run. */
  lemma EveryDocxPublished(dir: Directory, slips: seq<Slip>)
    requires forall i :: 0 <= i < |slips| ==> WellNamed(slips[i])
    ensures forall i :: 0 <= i < |slips| ==> FoldCase(slips[i].docx) in PublishAll(dir, slips)
  {
    forall i | 0 <= i < |slips| ensures FoldCase(slips[i].docx) in PublishAll(dir, slips) {
      LastWriterWins(dir, slips, slips[i].docx);
    }
  }

  /**
   Of two rows whose names agree up to letter case, only the later one's
   `.docx` survives: both save to one file.
   */
  lemma CaseVariantOverwrites(dir: Directory, first: Slip, second: Slip)
    requires WellNamed(first) && WellNamed(second)
    requires FoldCase(Sanitize(DisplayName(first.record))) == FoldCase(Sanitize(DisplayName(second.record)))
    ensures FoldCase(first.docx) in PublishAll(dir, [first, second])
    ensures PublishAll(dir, [first, second])[FoldCase(first.docx)] == Editable(second.filled)
  {
    OutputFilesCollideIff(first.record, second.record);
    assert SameFile(first.docx, second.docx);
    assert Writes(second, first.docx);
    assert ArtifactOf(second, first.docx) == Editable(second.filled);
    var after := Publish(dir, first);
    PublishEffect(after, second, first.docx);
    var key := FoldCase(first.docx);
    assert Publish(after, second)[key] == Editable(second.filled);
    PublishTwo(dir, first, second);
  }

  lemma PublishTwo(dir: Directory, first: Slip, second: Slip)
    ensures PublishAll(dir, [first, second]) == Publish(Publish(dir, first), second)
  {
    assert [first][..0] == [];
    assert PublishAll(dir, [first]) == Publish(dir, first);
    assert [first, second][..1] == [first];
  }
}

=== FILE: naming.dfy ===
/**
 The output file names of one slip (generate.py:77, 80, 93):
 `re.sub(r'[^\w\s]', '', name).replace(" ", "_")` on the record's `Name`
 (default `"Employee"`), followed by `_Salary_Slip.docx` / `.pdf`; and
 how Windows, the program's only platform, treats those names.

 `\w` and `\s` are read on the ASCII range only: `\w` is a letter, digit
 or `_`; `\s` is space, tab, newline, carriage return, vertical tab, form
 feed, or one of the separators U+001C to U+001F, which Python counts as
 whitespace too. Non-ASCII letters, digits and whitespace are not modelled.
 */
module Naming {
  import opened Records

  /** `\w`, ASCII reading. */
  predicate IsWordChar(c: char)
  {
    ('a' <= c <= 'z') || ('A' <= c <= 'Z') || ('0' <= c <= '9') || c == '_'
  }

  /** `\s`, ASCII reading. */
  predicate IsSpaceChar(c: char)
  {
    || c == ' ' || c == '\t' || c == '\n' || c == '\r' || c == '\U{0B}' || c == '\U{0C}'
    || ('\U{1C}' <= c <= '\U{1F}')
  }

  /** `re.sub(r'[^\w\s]', '', s)`: keep word and whitespace characters only. */
  function StripPunctuation(s: string): (r: string)
    ensures |r| <= |s|
    ensures forall c :: c in r ==> IsWordChar(c) || IsSpaceChar(c)
    decreases |s|
  {
    if |s| == 0 then ""
    else if IsWordChar(s[0]) || IsSpaceChar(s[0]) then [s[0]] + StripPunctuation(s[1..])
    else StripPunctuation(s[1..])
  }

  /** `s.replace(" ", "_")`: each single space becomes one underscore. */
  function SpacesToUnderscores(s: string): (r: string)
    ensures |r| == |s|
    ensures ' ' !in r
    decreases |s|
  {
    if |s| == 0 then ""
    else [if s[0] == ' ' then '_' else s[0]] + SpacesToUnderscores(s[1..])
  }

  /** The file-name stem made from a display name (generate.py:77). */
  function Sanitize(name: string): (r: string)
    ensures |r| <= |name|
    ensures forall c :: c in r ==> IsWordChar(c) || (IsSpaceChar(c) && c != ' ')
  {
    var stripped := StripPunctuation(name);
    var r := SpacesToUnderscores(stripped);
    assert forall i :: 0 <= i < |r| ==> r[i] == stripped[i] || r[i] == '_' by {
      SpacesToUnderscoresPointwise(stripped);
    }
    r
  }

  lemma {:induction false} SpacesToUnderscoresPointwise(s: string)
    ensures forall i :: 0 <= i < |s| ==>
      SpacesToUnderscores(s)[i] == if s[i] == ' ' then '_' else s[i]
    decreases |s|
  {
    if |s| > 0 {
      SpacesToUnderscoresPointwise(s[1..]);
    }
  }

  /** What a single character becomes in the stem. */
  function CharImage(c: char): string
  {
    if c == ' ' then "_"
    else if IsWordChar(c) || IsSpaceChar(c) then [c]
    else ""
  }

  /** The reference reading: each character mapped on its own, the images concatenated. */
  function MapChars(s: string): string
    decreases |s|
  {
    if |s| == 0 then "" else CharImage(s[0]) + MapChars(s[1..])
  }

  /**
   The two passes of the source (strip, then replace spaces) are the same
   as one per-character pass: a space becomes exactly one `_`, another word
   or whitespace character is kept, anything else is dropped. In
   particular runs of spaces are NOT collapsed, and tabs and newlines
   survive.
   */
  lemma {:induction false} SanitizeIsPerCharacter(s: string)
    ensures Sanitize(s) == MapChars(s)
    decreases |s|
  {
    if |s| > 0 {
      SanitizeIsPerCharacter(s[1..]);
    }
  }

  /** Sanitising distributes over concatenation. */
  lemma {:induction false} SanitizeAppend(a: string, b: string)
    ensures Sanitize(a + b) == Sanitize(a) + Sanitize(b)
    decreases |a|
  {
    SanitizeIsPerCharacter(a + b);
    SanitizeIsPerCharacter(a);
    SanitizeIsPerCharacter(b);
    MapCharsAppend(a, b);
  }

  lemma {:induction false} MapCharsAppend(a: string, b: string)
    ensures MapChars(a + b) == MapChars(a) + MapChars(b)
    decreases |a|
  {
    if |a| > 0 {
      assert (a + b)[0] == a[0];
      assert (a + b)[1..] == a[1..] + b;
      MapCharsAppend(a[1..], b);
      assert MapChars(a + b) == CharImage(a[0]) + MapChars(a[1..] + b);
    } else {
      assert a + b == b;
    }
  }

  /** A character that is neither a word nor a whitespace character vanishes without a trace. */
  lemma PunctuationDropped(a: string, c: char, b: string)
    requires !IsWordChar(c) && !IsSpaceChar(c)
    ensures Sanitize(a + [c] + b) == Sanitize(a + b)
  {
    SanitizeAppend(a + [c], b);
    SanitizeAppend(a, [c]);
    SanitizeAppend(a, b);
    SanitizeIsPerCharacter([c]);
    assert MapChars([c]) == CharImage(c) + MapChars([c][1..]);
  }

  /** A single space becomes a single underscore, whatever surrounds it. */
  lemma SpaceBecomesUnderscore(a: string, b: string)
    ensures Sanitize(a + [' '] + b) == Sanitize(a) + "_" + Sanitize(b)
  {
    SanitizeAppend(a + [' '], b);
    SanitizeAppend(a, [' ']);
    SanitizeIsPerCharacter([' ']);
    assert MapChars([' ']) == CharImage(' ') + MapChars([' '][1..]);
  }

  /** Number of occurrences of `c` in `s`. */
  function CountChar(s: string, c: char): nat
    decreases |s|
  {
    if |s| == 0 then 0 else (if s[0] == c then 1 else 0) + CountChar(s[1..], c)
  }

  /** Each space of the name yields exactly one `_`, next to the `_`s the name already had. */
  lemma {:induction false} UnderscoreCount(s: string)
    ensures CountChar(Sanitize(s), '_') == CountChar(s, '_') + CountChar(s, ' ')
    decreases |s|
  {
    SanitizeIsPerCharacter(s);
    if |s| > 0 {
      UnderscoreCount(s[1..]);
      SanitizeIsPerCharacter(s[1..]);
      CountCharAppend(CharImage(s[0]), MapChars(s[1..]), '_');
    }
  }

  lemma {:induction false} CountCharAppend(a: string, b: string, c: char)
    ensures CountChar(a + b, c) == CountChar(a, c) + CountChar(b, c)
    decreases |a|
  {
    if |a| > 0 {
      assert (a + b)[0] == a[0];
      assert (a + b)[1..] == a[1..] + b;
      CountCharAppend(a[1..], b, c);
    } else {
      assert a + b == b;
    }
  }

  /** A stem already sanitised is left alone: sanitising is idempotent. */
  lemma {:induction false} SanitizeIdempotent(s: string)
    ensures Sanitize(Sanitize(s)) == Sanitize(s)
  {
    var r := Sanitize(s);
    SanitizeFixesClean(r);
  }

  /** A string of word characters and non-space whitespace is its own stem. */
  lemma {:induction false} SanitizeFixesClean(r: string)
    requires forall c :: c in r ==> IsWordChar(c) || (IsSpaceChar(c) && c != ' ')
    ensures Sanitize(r) == r
    decreases |r|
  {
    SanitizeIsPerCharacter(r);
    if |r| > 0 {
      assert forall c :: c in r[1..] ==> c in r;
      SanitizeFixesClean(r[1..]);
      SanitizeIsPerCharacter(r[1..]);
    }
  }

  /**
   The stem holds no path separator, drive separator or extension dot.
   It may still hold whitespace other than the space (a tab, say), which
   Windows refuses in a file name (see `SaveableIff`).
   */
  lemma SanitizedIsPathSafe(s: string)
    ensures '/' !in Sanitize(s) && '\\' !in Sanitize(s) && ':' !in Sanitize(s) && '.' !in Sanitize(s)
  {
  }

  const DefaultName: string := "Employee"
  const SlipSuffix: string := "_Salary_Slip"

  /** The display name: `placeholder_data.get("Name", "Employee")`. */
  function DisplayName(rec: Record): (n: string)
    ensures "Name" !in Keys(rec) ==> n == DefaultName
    ensures "Name" in Keys(rec) ==> Lookup(rec, "Name") == Text.Some(n)
  {
    Get(rec, "Name", DefaultName)
  }

  /** The stem shared by both output files. */
  function SlipStem(rec: Record): string
  {
    Sanitize(DisplayName(rec)) + SlipSuffix
  }

  /** The editable output: `<name>_Salary_Slip.docx` (generate.py:80). */
  function DocxName(rec: Record): (n: string)
    ensures |n| == |Sanitize(DisplayName(rec))| + |SlipSuffix| + 5
    ensures n[..|Sanitize(DisplayName(rec))|] == Sanitize(DisplayName(rec))
    ensures n[|Sanitize(DisplayName(rec))|..|n| - 5] == SlipSuffix
    ensures n[|n| - 5..] == ".docx"
  {
    SlipStem(rec) + ".docx"
  }

  /** The fixed-layout output: `<name>_Salary_Slip.pdf` (generate.py:93). */
  function PdfName(rec: Record): (n: string)
    ensures |n| == |Sanitize(DisplayName(rec))| + |SlipSuffix| + 4
    ensures n[..|Sanitize(DisplayName(rec))|] == Sanitize(DisplayName(rec))
    ensures n[|Sanitize(DisplayName(rec))|..|n| - 4] == SlipSuffix
    ensures n[|n| - 4..] == ".pdf"
  {
    SlipStem(rec) + ".pdf"
  }

  /**
   Both outputs share one stem, differ only in the extension, and so never
   collide with each other; the stem is the sanitised name followed by
   `_Salary_Slip`.
   */
  lemma OutputNamesShareStem(rec: Record)
    ensures DocxName(rec)[..|DocxName(rec)| - 5] == PdfName(rec)[..|PdfName(rec)| - 4]
    ensures DocxName(rec) != PdfName(rec)
    ensures DocxName(rec)[..|Sanitize(DisplayName(rec))|] == Sanitize(DisplayName(rec))
  {
    var stem := SlipStem(rec);
    assert DocxName(rec)[..|stem|] == stem;
    assert PdfName(rec)[..|stem|] == stem;
    assert DocxName(rec)[|DocxName(rec)| - 1] == 'x';
    assert PdfName(rec)[|PdfName(rec)| - 1] == 'f';
  }

  /** Two records share both output names exactly when their sanitised names agree. */
  lemma OutputNamesCollideIff(a: Record, b: Record)
    ensures DocxName(a) == DocxName(b) <==> Sanitize(DisplayName(a)) == Sanitize(DisplayName(b))
    ensures PdfName(a) == PdfName(b) <==> Sanitize(DisplayName(a)) == Sanitize(DisplayName(b))
  {
    var sa := Sanitize(DisplayName(a));
    var sb := Sanitize(DisplayName(b));
    AppendCancel(sa + SlipSuffix, sb + SlipSuffix, ".docx");
    AppendCancel(sa + SlipSuffix, sb + SlipSuffix, ".pdf");
    AppendCancel(sa, sb, SlipSuffix);
  }

  lemma AppendCancel(x: string, y: string, z: string)
    ensures x + z == y + z <==> x == y
  {
    if x + z == y + z {
      assert x == (x + z)[..|x|];
      assert y == (y + z)[..|y|];
    }
  }

  // ----- File names as Windows treats them -----

  /** ASCII upper case. */
  function UpperChar(c: char): (u: char)
    ensures 'a' <= c <= 'z' ==> 'A' <= u <= 'Z' && u as int == c as int - 32
    ensures !('a' <= c <= 'z') ==> u == c
  {
    if 'a' <= c <= 'z' then (c as int - 32) as char else c
  }

  /**
   The key under which Windows files a name: it compares file names
   without regard to letter case, so `Alice_Salary_Slip.docx` and
   `ALICE_Salary_Slip.docx` are one file.
   */
  function FoldCase(s: string): (r: string)
    ensures |r| == |s|
    ensures forall i :: 0 <= i < |s| ==> r[i] == UpperChar(s[i])
  {
    seq(|s|, i requires 0 <= i < |s| => UpperChar(s[i]))
  }

  lemma FoldCaseAppend(a: string, b: string)
    ensures FoldCase(a + b) == FoldCase(a) + FoldCase(b)
  {
  }

  /** Characters Windows refuses in a file name: the controls below U+0020 and `<>:"/\|?*`. */
  predicate ForbiddenInFileName(c: char)
  {
    c < ' ' || c == '<' || c == '>' || c == ':' || c == '"' || c == '/' || c == '\\' || c == '|' || c == '?' || c == '*'
  }

  /** A name whose characters Windows accepts in a file name. */
  predicate ValidFileName(name: string)
  {
    forall i :: 0 <= i < |name| ==> !ForbiddenInFileName(name[i])
  }

  /** A whitespace character other than the space: all of them are controls, which Windows refuses in a file name. */
  predicate IsControlSpace(c: char)
  {
    IsSpaceChar(c) && c != ' '
  }

  /** Sanitising keeps every whitespace character other than the space, and adds none. */
  lemma {:induction false} MapCharsKeepsControl(s: string, c: char)
    requires IsControlSpace(c)
    ensures c in MapChars(s) <==> c in s
    decreases |s|
  {
    if |s| > 0 {
      MapCharsKeepsControl(s[1..], c);
      assert c in CharImage(s[0]) <==> s[0] == c;
      assert s == [s[0]] + s[1..];
    }
  }

  /**
   The `.docx` (and so the `.pdf`) name can be saved exactly when the
   display name holds no whitespace other than the space: the stem keeps
   those controls and has no other forbidden character.
   */
  lemma SaveableIff(rec: Record)
    ensures ValidFileName(DocxName(rec)) <==> ValidFileName(PdfName(rec))
    ensures ValidFileName(DocxName(rec)) <==> forall c :: c in DisplayName(rec) ==> !IsControlSpace(c)
  {
    var name := DisplayName(rec);
    var stem := Sanitize(name);
    SuffixesValid();
    ValidFileNameAppend(stem, SlipSuffix + ".docx");
    ValidFileNameAppend(stem, SlipSuffix + ".pdf");
    NamesSplit(rec);
    StemValidIff(name);
  }

  lemma SuffixesValid()
    ensures ValidFileName(SlipSuffix + ".docx") && ValidFileName(SlipSuffix + ".pdf")
  {
  }

  /** The stem can be saved exactly when the name holds no whitespace character other than the space. */
  lemma StemValidIff(name: string)
    ensures ValidFileName(Sanitize(name)) <==> forall c :: c in name ==> !IsControlSpace(c)
  {
    var stem := Sanitize(name);
    SanitizeIsPerCharacter(name);
    if c :| c in name && IsControlSpace(c) {
      MapCharsKeepsControl(name, c);
      var i :| 0 <= i < |stem| && stem[i] == c;
      assert ForbiddenInFileName(stem[i]);
    } else {
      MapCharsNoControl(name);
      forall i | 0 <= i < |stem| ensures !ForbiddenInFileName(stem[i]) {
        assert stem[i] in stem;
      }
    }
  }

  lemma {:induction false} MapCharsNoControl(s: string)
    requires forall c :: c in s ==> !IsControlSpace(c)
    ensures forall c :: c in MapChars(s) ==> !IsControlSpace(c)
    decreases |s|
  {
    if |s| > 0 {
      assert s[0] in s;
      assert forall c :: c in s[1..] ==> c in s;
      MapCharsNoControl(s[1..]);
    }
  }

  lemma ValidFileNameAppend(a: string, b: string)
    ensures ValidFileName(a + b) <==> ValidFileName(a) && ValidFileName(b)
  {
    if ValidFileName(a) && ValidFileName(b) {
      forall i | 0 <= i < |a + b| ensures !ForbiddenInFileName((a + b)[i]) {
        if i >= |a| {
          assert (a + b)[i] == b[i - |a|];
        }
      }
    }
    if ValidFileName(a + b) {
      forall i | 0 <= i < |a| ensures !ForbiddenInFileName(a[i]) {
        assert (a + b)[i] == a[i];
      }
      forall i | 0 <= i < |b| ensures !ForbiddenInFileName(b[i]) {
        assert (a + b)[|a| + i] == b[i];
      }
    }
  }

  /** The `.docx` and the `.pdf` of one record are two files even on Windows. */
  lemma OutputFilesDistinct(rec: Record)
    ensures FoldCase(DocxName(rec)) != FoldCase(PdfName(rec))
  {
    assert |DocxName(rec)| == |PdfName(rec)| + 1;
  }

  /**
   Two records write the same `.docx` file, and the same `.pdf` file,
   exactly when their sanitised names agree up to letter case.
   */
  lemma OutputFilesCollideIff(a: Record, b: Record)
    ensures FoldCase(DocxName(a)) == FoldCase(DocxName(b)) <==> FoldCase(Sanitize(DisplayName(a))) == FoldCase(Sanitize(DisplayName(b)))
    ensures FoldCase(PdfName(a)) == FoldCase(PdfName(b)) <==> FoldCase(Sanitize(DisplayName(a))) == FoldCase(Sanitize(DisplayName(b)))
  {
    var sa := Sanitize(DisplayName(a));
    var sb := Sanitize(DisplayName(b));
    NamesSplit(a);
    NamesSplit(b);
    FoldedCancel(sa, sb, SlipSuffix + ".docx");
    FoldedCancel(sa, sb, SlipSuffix + ".pdf");
  }

  lemma NamesSplit(rec: Record)
    ensures DocxName(rec) == Sanitize(DisplayName(rec)) + (SlipSuffix + ".docx")
    ensures PdfName(rec) == Sanitize(DisplayName(rec)) + (SlipSuffix + ".pdf")
  {
  }

  lemma FoldedCancel(x: string, y: string, z: string)
    ensures FoldCase(x + z) == FoldCase(y + z) <==> FoldCase(x) == FoldCase(y)
  {
    FoldCaseAppend(x, z);
    FoldCaseAppend(y, z);
    AppendCancel(FoldCase(x), FoldCase(y), FoldCase(z));
  }
}

=== FILE: records.dfy ===
/**
 The placeholder record of one employee: `dict(zip(headers, employee_data))`
 (generate.py:57). A Python dict is modelled as an association list in
 insertion order, which is the order `dict.items()` yields it in.
 */
module Records {
  import opened Text

  /** A header-to-cell dict, as its `(key, value)` items in iteration order. */
  type Record = seq<(string, string)>

  /** The keys of an item list, in order. */
  function Keys(items: seq<(string, string)>): (ks: seq<string>)
    ensures |ks| == |items|
    ensures forall i :: 0 <= i < |items| ==> ks[i] == items[i].0
    decreases |items|
  {
    if |items| == 0 then [] else [items[0].0] + Keys(items[1..])
  }

  /** No element appears twice. */
  predicate NoDuplicates(xs: seq<string>)
  {
    forall i, j :: 0 <= i < j < |xs| ==> xs[i] != xs[j]
  }

  /** No key appears twice: the shape of every Python dict. */
  predicate DistinctKeys(rec: Record)
  {
    NoDuplicates(Keys(rec))
  }

  /** `d[k]` when `k in d`, `None` otherwise (the first item with key `k`). */
  function Lookup(rec: Record, k: string): (r: Option<string>)
    ensures r.Some? <==> k in Keys(rec)
    ensures r.Some? ==> exists i :: 0 <= i < |rec| && rec[i] == (k, r.value)
    decreases |rec|
  {
    if |rec| == 0 then None
    else if rec[0].0 == k then Some(rec[0].1)
    else
      var r := Lookup(rec[1..], k);
      assert Keys(rec) == [rec[0].0] + Keys(rec[1..]);
      if r.Some? then
        var i :| 0 <= i < |rec[1..]| && rec[1..][i] == (k, r.value);
        assert rec[i + 1] == (k, r.value);
        r
      else r
  }

  /** Python's `d.get(k, default)`. */
  function Get(rec: Record, k: string, default: string): (v: string)
    ensures k !in Keys(rec) ==> v == default
    ensures k in Keys(rec) ==> Lookup(rec, k) == Some(v)
  {
    match Lookup(rec, k)
    case Some(v) => v
    case None => default
  }

  /**
   Python's `d[k] = v`: an existing key keeps its position and takes the
   new value; a new key is appended at the end.
   */
  function Put(rec: Record, k: string, v: string): (r: Record)
    ensures Lookup(r, k) == Some(v)
    ensures forall k' :: k' != k ==> Lookup(r, k') == Lookup(rec, k')
    decreases |rec|
  {
    if |rec| == 0 then [(k, v)]
    else if rec[0].0 == k then
      var r := [(k, v)] + rec[1..];
      assert r[1..] == rec[1..];
      r
    else
      var tail := Put(rec[1..], k, v);
      var r := [rec[0]] + tail;
      assert r[1..] == tail;
      r
  }

  /** Assignment keeps an existing key in place and appends a new one at the end. */
  lemma {:induction false} PutKeys(rec: Record, k: string, v: string)
    ensures k in Keys(rec) ==> Keys(Put(rec, k, v)) == Keys(rec)
    ensures k !in Keys(rec) ==> Keys(Put(rec, k, v)) == Keys(rec) + [k]
    decreases |rec|
  {
    if |rec| > 0 && rec[0].0 != k {
      PutKeys(rec[1..], k, v);
      var tail := Put(rec[1..], k, v);
      assert Keys(rec) == [rec[0].0] + Keys(rec[1..]);
      assert Keys([rec[0]] + tail) == [rec[0].0] + Keys(tail);
    }
  }

  /** `dict(pairs)`: the pairs assigned one after another, left to right. */
  function FromPairs(pairs: seq<(string, string)>): (r: Record)
    ensures DistinctKeys(r)
    decreases |pairs|
  {
    if |pairs| == 0 then []
    else
      var n := |pairs| - 1;
      var prev := FromPairs(pairs[..n]);
      PutKeys(prev, pairs[n].0, pairs[n].1);
      NoDuplicatesAppend(Keys(prev), pairs[n].0);
      Put(prev, pairs[n].0, pairs[n].1)
  }

  lemma NoDuplicatesAppend(xs: seq<string>, k: string)
    ensures NoDuplicates(xs) && k !in xs ==> NoDuplicates(xs + [k])
  {
  }

  /** Python's `zip(xs, ys)`: positional pairs, stopping at the shorter list. */
  function Zip(xs: seq<string>, ys: seq<string>): (r: seq<(string, string)>)
    ensures |r| == if |xs| <= |ys| then |xs| else |ys|
    ensures forall i :: 0 <= i < |r| ==> r[i] == (xs[i], ys[i])
  {
    var n := if |xs| <= |ys| then |xs| else |ys|;
    seq(n, i requires 0 <= i < n => (xs[i], ys[i]))
  }

  /** The record for one data row: `dict(zip(headers, row))`. */
  function BuildRecord(headers: seq<string>, row: seq<string>): (rec: Record)
    ensures DistinctKeys(rec)
  {
    FromPairs(Zip(headers, row))
  }

  /** The last position of `k` in `xs`, or `None` when `k` does not occur. */
  function LastIndexOf(xs: seq<string>, k: string): (r: Option<nat>)
    ensures r.None? <==> k !in xs
    ensures r.Some? ==> r.value < |xs| && xs[r.value] == k
    ensures r.Some? ==> forall j :: r.value < j < |xs| ==> xs[j] != k
    decreases |xs|
  {
    if |xs| == 0 then None
    else if xs[|xs| - 1] == k then Some(|xs| - 1)
    else
      assert xs == xs[..|xs| - 1] + [xs[|xs| - 1]];
      LastIndexOf(xs[..|xs| - 1], k)
  }

  /** The first position of `k` in `xs`. */
  function FirstIndexOf(xs: seq<string>, k: string): (i: nat)
    requires k in xs
    ensures i < |xs| && xs[i] == k
    ensures forall j :: 0 <= j < i ==> xs[j] != k
    decreases |xs|
  {
    if xs[0] == k then 0 else 1 + FirstIndexOf(xs[1..], k)
  }

  /** `xs` with every repeated element dropped, first occurrences kept in order. */
  function Dedup(xs: seq<string>): (d: seq<string>)
    ensures forall y :: y in d <==> y in xs
    ensures NoDuplicates(d)
    decreases |xs|
  {
    if |xs| == 0 then []
    else
      var n := |xs| - 1;
      var d := Dedup(xs[..n]);
      assert xs == xs[..n] + [xs[n]];
      if xs[n] in d then d else d + [xs[n]]
  }

  /** A first occurrence inside a prefix is the first occurrence in the whole sequence. */
  lemma {:induction false} FirstIndexOfPrefix(xs: seq<string>, n: nat, k: string)
    requires n <= |xs| && k in xs[..n]
    ensures FirstIndexOf(xs, k) == FirstIndexOf(xs[..n], k)
  {
    var i := FirstIndexOf(xs[..n], k);
    var i' := FirstIndexOf(xs, k);
    assert xs[i] == k;
    assert i' <= i;
    assert xs[..n][i'] == k;
  }

  /** The deduplicated list is ordered by each element's first occurrence. */
  lemma {:induction false} DedupFirstOccurrenceOrder(xs: seq<string>)
    ensures forall i, j :: 0 <= i < j < |Dedup(xs)| ==>
      FirstIndexOf(xs, Dedup(xs)[i]) < FirstIndexOf(xs, Dedup(xs)[j])
    decreases |xs|
  {
    if |xs| > 0 {
      var n := |xs| - 1;
      var d := Dedup(xs[..n]);
      DedupFirstOccurrenceOrder(xs[..n]);
      forall y | y in d
        ensures FirstIndexOf(xs, y) == FirstIndexOf(xs[..n], y) && FirstIndexOf(xs, y) < n
      {
        FirstIndexOfPrefix(xs, n, y);
      }
      if xs[n] !in d {
        assert xs[n] !in xs[..n];
        assert FirstIndexOf(xs, xs[n]) == n;
      }
    }
  }

  /** The keys of `dict(pairs)` are the pair keys with repeats dropped, in first-insertion order. */
  lemma {:induction false} FromPairsKeys(pairs: seq<(string, string)>)
    ensures Keys(FromPairs(pairs)) == Dedup(Keys(pairs))
    decreases |pairs|
  {
    if |pairs| > 0 {
      FromPairsKeys(pairs[..|pairs| - 1]);
      FromPairsKeysStep(pairs);
    }
  }

  lemma FromPairsKeysStep(pairs: seq<(string, string)>)
    requires |pairs| > 0
    requires Keys(FromPairs(pairs[..|pairs| - 1])) == Dedup(Keys(pairs[..|pairs| - 1]))
    ensures Keys(FromPairs(pairs)) == Dedup(Keys(pairs))
  {
    var n := |pairs| - 1;
    FromPairsLast(pairs);
    PutKeys(FromPairs(pairs[..n]), pairs[n].0, pairs[n].1);
    KeysPrefix(pairs, n);
    DedupLast(Keys(pairs));
  }

  lemma FromPairsLast(pairs: seq<(string, string)>)
    requires |pairs| > 0
    ensures FromPairs(pairs) == Put(FromPairs(pairs[..|pairs| - 1]), pairs[|pairs| - 1].0, pairs[|pairs| - 1].1)
  {
  }

  lemma KeysPrefix(pairs: seq<(string, string)>, n: nat)
    requires n <= |pairs|
    ensures Keys(pairs[..n]) == Keys(pairs)[..n]
  {
  }

  lemma DedupLast(xs: seq<string>)
    requires |xs| > 0
    ensures Dedup(xs) == if xs[|xs| - 1] in Dedup(xs[..|xs| - 1]) then Dedup(xs[..|xs| - 1])
                         else Dedup(xs[..|xs| - 1]) + [xs[|xs| - 1]]
  {
  }

  /** Looking up `k` in `dict(pairs)` yields the value of the LAST pair whose key is `k`. */
  lemma {:induction false} FromPairsLookup(pairs: seq<(string, string)>, k: string)
    ensures Lookup(FromPairs(pairs), k) ==
      match LastIndexOf(Keys(pairs), k)
      case None => None
      case Some(j) => Some(pairs[j].1)
    decreases |pairs|
  {
    if |pairs| > 0 {
      var n := |pairs| - 1;
      FromPairsLookup(pairs[..n], k);
      FromPairsLast(pairs);
      KeysPrefix(pairs, n);
    }
  }

  /**
   The record of a row pairs only the first `min(|headers|, |row|)`
   positions; its keys are those headers with repeats dropped, in first
   occurrence order, and a repeated header takes the cell of its LAST
   position.
   */
  lemma BuildRecordSpec(headers: seq<string>, row: seq<string>, k: string)
    ensures var m := if |headers| <= |row| then |headers| else |row|;
      && Keys(BuildRecord(headers, row)) == Dedup(headers[..m])
      && Lookup(BuildRecord(headers, row), k) ==
           match LastIndexOf(headers[..m], k)
           case None => None
           case Some(j) => Some(row[j])
  {
    var m := if |headers| <= |row| then |headers| else |row|;
    var pairs := Zip(headers, row);
    assert Keys(pairs) == headers[..m];
    FromPairsKeys(pairs);
    FromPairsLookup(pairs, k);
  }
}

=== FILE: scenarios.dfy ===
/**
 Concrete runs of the model: the documented examples of the generator's
 behaviour, each proved about the definitions above.

 Several lemmas take their string literals as parameters pinned by a
 `requires x == "..."`: this keeps the solver from unfolding the
 definitions on literal arguments without bound.
 */
module Scenarios {
  import opened Text
  import opened Records
  import opened Templates
  import opened Naming
  import opened Driver

  /** `"{Name}"` with `Name -> "Alice"` becomes `"Alice"`. */
  lemma SinglePlaceholder()
    ensures SubstituteRun([("Name", "Alice")], "{Name}") == "Alice"
  {
    assert "{Name}" <= "{Name}";
    assert ReplaceAll("{Name}", Token("Name"), "Alice") == "Alice" + ReplaceAll("", "{Name}", "Alice");
  }

  /** Every occurrence in a run is replaced: `"{Name} {Name}"` with `Name -> "Bob"` becomes `"Bob Bob"`. */
  lemma RepeatedPlaceholder()
    ensures SubstituteRun([("Name", "Bob")], "{Name} {Name}") == "Bob Bob"
  {
    var tok := Token("Name");
    var s := "{Name} {Name}";
    assert tok <= s;
    assert s[6..] == " {Name}";
    assert !(tok <= " {Name}");
    assert " {Name}"[1..] == "{Name}";
    assert tok <= "{Name}";
    assert "{Name}"[6..] == "";
    assert ReplaceAll(s, tok, "Bob") == "Bob" + ([' '] + ("Bob" + ""));
  }

  /** A placeholder whose name is not a header survives: `"{Unknown}"` stays. */
  lemma UnknownPlaceholder(rec: Record, run: string)
    requires rec == [("Name", "Alice")] && run == "{Unknown}"
    ensures SubstituteRun(rec, run) == run
  {
    assert run == Token("Unknown");
    assert Keys(rec) == ["Name"];
    UnknownPlaceholderSurvives(rec, "Unknown");
  }

  /** A token split as `"{Na"` + `"me}"` over two runs is substituted in neither. */
  lemma SplitAcrossRuns()
    ensures RenderParagraph([("Name", "Alice")], Paragraph(["{Na", "me}"])) == Paragraph(["{Na", "me}"])
  {
    var rec := [("Name", "Alice")];
    SplitTokenNotSubstituted(rec, "Name", 3);
    assert Token("Name")[..3] == "{Na";
    assert Token("Name")[3..] == "me}";
  }

  /**
   The fold runs over the already rewritten text, so item order matters: a
   value holding a later key's token is itself filled in, but not an
   earlier key's.
   */
  lemma ItemOrderMatters()
    ensures SubstituteRun([("A", "{B}"), ("B", "x")], "{A}") == "x"
    ensures SubstituteRun([("B", "x"), ("A", "{B}")], "{A}") == "{B}"
  {
    GuardIsRedundant([("A", "{B}"), ("B", "x")], "{A}");
    GuardIsRedundant([("B", "x"), ("A", "{B}")], "{A}");
    ReplaceAllAtPattern("", Token("A"), "{B}");
    ReplaceAllAtPattern("", Token("B"), "x");
    assert Token("A") + "" == "{A}";
    assert Token("B") + "" == "{B}";
    OtherTokenAbsent("A", "B");
  }

  /** A repeated header keeps its first position and its last cell. */
  lemma DuplicateHeader()
    ensures BuildRecord(["Name", "Basic", "Name"], ["Ann", "10", "Bea"]) == [("Name", "Bea"), ("Basic", "10")]
  {
    var a, b, c := ("Name", "Ann"), ("Basic", "10"), ("Name", "Bea");
    assert Zip(["Name", "Basic", "Name"], ["Ann", "10", "Bea"]) == [a, b, c];
    FromPairsLast([a]);
    assert [a][..0] == [];
    FromPairsLast([a, b]);
    assert [a, b][..1] == [a];
    FromPairsLast([a, b, c]);
    assert [a, b, c][..2] == [a, b];
    PutConcrete();
  }

  lemma PutConcrete()
    ensures Put([], "Name", "Ann") == [("Name", "Ann")]
    ensures Put([("Name", "Ann")], "Basic", "10") == [("Name", "Ann"), ("Basic", "10")]
    ensures Put([("Name", "Ann"), ("Basic", "10")], "Name", "Bea") == [("Name", "Bea"), ("Basic", "10")]
  {
    assert [("Name", "Ann"), ("Basic", "10")][1..] == [("Basic", "10")];
    assert [("Name", "Ann")][1..] == [];
  }

  /** A short row pairs only as many headers as it has cells. */
  lemma ShortRow()
    ensures BuildRecord(["Name", "Basic"], ["Ann"]) == [("Name", "Ann")]
  {
    var pairs := Zip(["Name", "Basic"], ["Ann"]);
    assert pairs == [("Name", "Ann")];
    assert pairs[..0] == [];
  }

  lemma CleanSurname(s: string)
    requires s == "OBrien"
    ensures Sanitize(s) == "OBrien"
  {
    SanitizeFixesClean(s);
  }

  /** `"O'Brien, J.!!"` gives the stem `"OBrien_J"`. */
  lemma PunctuationStripped(name: string)
    requires name == "O'Brien, J.!!"
    ensures Sanitize(name) == "OBrien_J"
  {
    assert name == "O'Brien," + [' '] + "J.!!";
    SpaceBecomesUnderscore("O'Brien,", "J.!!");
    SurnameStem("O'Brien,");
    InitialStem("J.!!");
  }

  lemma SurnameStem(s: string)
    requires s == "O'Brien,"
    ensures Sanitize(s) == "OBrien"
  {
    assert s == "O" + ['\''] + "Brien,";
    PunctuationDropped("O", '\'', "Brien,");
    assert "O" + "Brien," == "OBrien" + [','] + "";
    PunctuationDropped("OBrien", ',', "");
    CleanSurname("OBrien" + "");
  }

  lemma InitialStem(s: string)
    requires s == "J.!!"
    ensures Sanitize(s) == "J"
  {
    assert s == "J" + ['.'] + "!!";
    PunctuationDropped("J", '.', "!!");
    assert "J" + "!!" == "J" + ['!'] + "!";
    PunctuationDropped("J", '!', "!");
    assert "J" + "!" == "J" + ['!'] + "";
    PunctuationDropped("J", '!', "");
    SanitizeFixesClean("J" + "");
  }

  /** Each space is its own underscore: `"A  B"` gives `"A__B"`; a tab survives. */
  lemma SpacesNotCollapsed(a: string, b: string)
    requires a == "A  B" && b == "A\tB"
    ensures Sanitize(a) == "A__B"
    ensures Sanitize(b) == b
  {
    assert a == "A" + [' '] + (" B");
    assert " B" == "" + [' '] + "B";
    SpaceBecomesUnderscore("A", " B");
    SpaceBecomesUnderscore("", "B");
    SanitizeFixesClean("A");
    SanitizeFixesClean("B");
    SanitizeFixesClean("");
    SanitizeFixesClean(b);
  }

  /** Without a `Name` column both outputs are named after `"Employee"`. */
  lemma MissingNameColumn(rec: Record)
    requires "Name" !in Keys(rec)
    ensures DocxName(rec) == "Employee_Salary_Slip.docx"
    ensures PdfName(rec) == "Employee_Salary_Slip.pdf"
  {
    DefaultStemClean();
    DefaultStem(Sanitize(DisplayName(rec)));
  }

  lemma DefaultStemClean()
    ensures Sanitize(DefaultName) == DefaultName
  {
    SanitizeFixesClean(DefaultName);
  }

  lemma DefaultStem(stem: string)
    requires stem == DefaultName
    ensures stem + SlipSuffix + ".docx" == "Employee_Salary_Slip.docx"
    ensures stem + SlipSuffix + ".pdf" == "Employee_Salary_Slip.pdf"
  {
  }

  /**
   One employee, one body paragraph: the slip holds the filled copy of the
   template and is named after the employee, for any name made of word
   characters and any pay figure.
   */
  lemma FilledSlip(name: string, pay: string)
    requires forall c :: c in name ==> IsWordChar(c)
    ensures var template := Document([Paragraph(["Dear {Name}, your basic pay is {Basic}."])], []);
      var slip := GenerateSlip(template, ["Name", "Basic"], [name, pay], true);
      && slip.filled == Document([Paragraph(["Dear " + name + ", your basic pay is " + pay + "."])], [])
      && slip.docx == name + "_Salary_Slip.docx"
      && slip.pdf == name + "_Salary_Slip.pdf"
  {
    var rec := TwoColumnRecord(name, pay);
    var template := Document([Paragraph(["Dear {Name}, your basic pay is {Basic}."])], []);
    FillSentence(rec, "Dear {Name}, your basic pay is {Basic}.", name, pay);
    RenderSingleRun(rec, "Dear {Name}, your basic pay is {Basic}.");
    assert DisplayName(rec) == name;
    SanitizeFixesClean(name);
    SlipNames(name, SlipStem(rec));
  }

  /** A template of one run in one paragraph renders to that run's substitution. */
  lemma RenderSingleRun(rec: Record, run: string)
    ensures Render(rec, Document([Paragraph([run])], [])) == Document([Paragraph([SubstituteRun(rec, run)])], [])
  {
    var p := RenderParagraph(rec, Paragraph([run]));
    assert p.runs == [SubstituteRun(rec, run)];
    assert RenderParagraphs(rec, [Paragraph([run])]) == [p];
  }

  lemma SlipNames(name: string, stem: string)
    requires stem == name + SlipSuffix
    ensures stem + ".docx" == name + "_Salary_Slip.docx"
    ensures stem + ".pdf" == name + "_Salary_Slip.pdf"
  {
  }

  /** `dict(zip(["Name", "Basic"], [name, pay]))`. */
  lemma TwoColumnRecord(name: string, pay: string) returns (rec: Record)
    ensures rec == BuildRecord(["Name", "Basic"], [name, pay])
    ensures rec == [("Name", name), ("Basic", pay)]
  {
    var pairs := Zip(["Name", "Basic"], [name, pay]);
    assert pairs == [("Name", name), ("Basic", pay)];
    FromPairsLast(pairs);
    FromPairsLast(pairs[..1]);
    assert pairs[..1][..0] == [];
    PutSecond("Name", name, "Basic", pay);
    rec := BuildRecord(["Name", "Basic"], [name, pay]);
  }

  lemma PutSecond(k1: string, v1: string, k2: string, v2: string)
    requires k1 != k2
    ensures Put(Put([], k1, v1), k2, v2) == [(k1, v1), (k2, v2)]
  {
    assert [(k1, v1)][1..] == [];
  }

  /** Both placeholders of one run are filled, each by its own column. */
  lemma FillSentence(rec: Record, s: string, name: string, pay: string)
    requires rec == [("Name", name), ("Basic", pay)] && s == "Dear {Name}, your basic pay is {Basic}."
    requires '{' !in name
    ensures SubstituteRun(rec, s) == "Dear " + name + ", your basic pay is " + pay + "."
  {
    SentenceTokens(s);
    TwoPlaceholdersFill("Dear ", "Name", ", your basic pay is ", "Basic", ".", name, pay);
  }

  lemma SentenceTokens(s: string)
    requires s == "Dear {Name}, your basic pay is {Basic}."
    ensures s == "Dear " + Token("Name") + ", your basic pay is " + Token("Basic") + "."
  {
  }

  /**
   `"Alice"` and `"ALICE"` give different stems, but one file: on Windows
   the second row's save overwrites the first row's `.docx`.
   */
  lemma CaseVariantsShareFile(a: string, b: string)
    requires a == "Alice" && b == "ALICE"
    ensures Sanitize(a) != Sanitize(b)
    ensures FoldCase(Sanitize(a)) == FoldCase(Sanitize(b))
  {
    SanitizeFixesClean(a);
    SanitizeFixesClean(b);
    assert a[1] != b[1];
    assert FoldCase(a) == b;
  }

  /** A tab in the name survives sanitising, so the row's `.docx` cannot be saved and the run halts there. */
  lemma TabNameNotSaveable(name: string)
    requires name == "A\tB"
    ensures !ValidFileName(Sanitize(name))
  {
    assert name[1] in name;
    StemValidIff(name);
  }

  /** The separator U+001C is whitespace to Python, so it survives in the stem. */
  lemma SeparatorKept(name: string)
    requires name == "A\U{1C}B"
    ensures Sanitize(name) == name
  {
    SanitizeFixesClean(name);
  }
}

=== FILE: templates.dfy ===
/**
 The Word template reduced to what the generator touches: body paragraphs
 and the paragraphs of every cell of every top-level table, each paragraph
 a sequence of text runs. Placeholder substitution (generate.py:60-74)
 rewrites every run on its own.
 */
module Templates {
  import opened Text
  import opened Records

  datatype Paragraph = Paragraph(runs: seq<string>)

  /** A table cell. Tables nested in a cell are kept but never visited. */
  datatype Cell = Cell(paragraphs: seq<Paragraph>, tables: seq<Table>)

  datatype Row = Row(cells: seq<Cell>)

  datatype Table = Table(rows: seq<Row>)

  /** A document: its body paragraphs and its top-level tables. */
  datatype Document = Document(paragraphs: seq<Paragraph>, tables: seq<Table>)

  /** The placeholder for `key`: `"{" + key + "}"`, never empty. */
  function Token(key: string): (t: string)
    ensures |t| == |key| + 2 && t[0] == '{' && t[|t| - 1] == '}'
    ensures t[1..|t| - 1] == key
  {
    "{" + key + "}"
  }

  /**
   One iteration of the innermost loop (generate.py:63-64): if the token
   is in the run's text, replace all of its occurrences with the value.
   */
  function SubstituteStep(text: string, key: string, value: string): (r: string)
    ensures |r| == |text| + CountOccurrences(text, Token(key)) * (|value| - |Token(key)|)
    ensures value == Token(key) ==> r == text
  {
    ReplaceAllLength(text, Token(key), value);
    if Contains(text, Token(key)) then ReplaceAll(text, Token(key), value) else text
  }

  /**
   The whole innermost loop over `placeholder_data.items()`: each item in
   turn rewrites the text the previous items left behind.
   */
  function SubstituteRun(rec: Record, text: string): (r: string)
    ensures (forall i :: 0 <= i < |rec| ==> rec[i].1 == Token(rec[i].0)) ==> r == text
    decreases |rec|
  {
    if |rec| == 0 then text
    else SubstituteRun(rec[1..], SubstituteStep(text, rec[0].0, rec[0].1))
  }

  /** The same loop without the `in` guard: a left fold of `replace`. */
  function ReplaceFold(rec: Record, text: string): string
    decreases |rec|
  {
    if |rec| == 0 then text
    else ReplaceFold(rec[1..], ReplaceAll(text, Token(rec[0].0), rec[0].1))
  }

  function RenderParagraph(rec: Record, p: Paragraph): Paragraph
  {
    Paragraph(seq(|p.runs|, i requires 0 <= i < |p.runs| => SubstituteRun(rec, p.runs[i])))
  }

  function RenderParagraphs(rec: Record, ps: seq<Paragraph>): seq<Paragraph>
  {
    seq(|ps|, i requires 0 <= i < |ps| => RenderParagraph(rec, ps[i]))
  }

  function RenderCell(rec: Record, c: Cell): Cell
  {
    Cell(RenderParagraphs(rec, c.paragraphs), c.tables)
  }

  function RenderRow(rec: Record, r: Row): Row
  {
    Row(seq(|r.cells|, i requires 0 <= i < |r.cells| => RenderCell(rec, r.cells[i])))
  }

  function RenderTable(rec: Record, t: Table): Table
  {
    Table(seq(|t.rows|, i requires 0 <= i < |t.rows| => RenderRow(rec, t.rows[i])))
  }

  /** The filled document: body paragraphs (60-64), then every table cell's paragraphs (67-74). */
  function Render(rec: Record, doc: Document): (r: Document)
    ensures |r.paragraphs| == |doc.paragraphs| && |r.tables| == |doc.tables|
    ensures forall i :: 0 <= i < |doc.paragraphs| ==> |r.paragraphs[i].runs| == |doc.paragraphs[i].runs|
  {
    Document(
      RenderParagraphs(rec, doc.paragraphs),
      seq(|doc.tables|, i requires 0 <= i < |doc.tables| => RenderTable(rec, doc.tables[i])))
  }

  // ----- Structure -----

  predicate SameParagraphShape(a: Paragraph, b: Paragraph)
  {
    |a.runs| == |b.runs|
  }

  predicate SameParagraphsShape(a: seq<Paragraph>, b: seq<Paragraph>)
  {
    |a| == |b| && forall i :: 0 <= i < |a| ==> SameParagraphShape(a[i], b[i])
  }

  predicate SameCellShape(a: Cell, b: Cell)
  {
    SameParagraphsShape(a.paragraphs, b.paragraphs) && a.tables == b.tables
  }

  predicate SameRowShape(a: Row, b: Row)
  {
    |a.cells| == |b.cells| && forall i :: 0 <= i < |a.cells| ==> SameCellShape(a.cells[i], b.cells[i])
  }

  predicate SameTableShape(a: Table, b: Table)
  {
    |a.rows| == |b.rows| && forall i :: 0 <= i < |a.rows| ==> SameRowShape(a.rows[i], b.rows[i])
  }

  /**
   Two documents with the same number of body paragraphs, tables, rows,
   cells, cell paragraphs and runs everywhere, and identical nested tables.
   */
  predicate SameShape(a: Document, b: Document)
  {
    && SameParagraphsShape(a.paragraphs, b.paragraphs)
    && |a.tables| == |b.tables|
    && forall i :: 0 <= i < |a.tables| ==> SameTableShape(a.tables[i], b.tables[i])
  }

  /**
   Rendering keeps the document's structure: no paragraph, table, row,
   cell or run is added, dropped or moved (generate.py:60-74 only assigns
   `run.text`).
   */
  lemma RenderPreservesShape(rec: Record, doc: Document)
    ensures SameShape(Render(rec, doc), doc)
  {
  }

  /**
   Rendering is run-local: every body run and every table-cell run is
   rewritten by the same per-run substitution of its own old text, and
   nothing else is consulted.
   */
  lemma RenderIsRunLocal(rec: Record, doc: Document)
    ensures forall p, r :: 0 <= p < |doc.paragraphs| && 0 <= r < |doc.paragraphs[p].runs| ==>
      Render(rec, doc).paragraphs[p].runs[r] == SubstituteRun(rec, doc.paragraphs[p].runs[r])
    ensures forall t, w, c, p, r ::
      && 0 <= t < |doc.tables|
      && 0 <= w < |doc.tables[t].rows|
      && 0 <= c < |doc.tables[t].rows[w].cells|
      && 0 <= p < |doc.tables[t].rows[w].cells[c].paragraphs|
      && 0 <= r < |doc.tables[t].rows[w].cells[c].paragraphs[p].runs|
      ==> Render(rec, doc).tables[t].rows[w].cells[c].paragraphs[p].runs[r]
          == SubstituteRun(rec, doc.tables[t].rows[w].cells[c].paragraphs[p].runs[r])
  {
  }

  /** A paragraph placed in a table cell is filled exactly as it is in the body. */
  lemma TableCellsMatchBody(rec: Record, p: Paragraph)
    ensures Render(rec, Document([p], [])).paragraphs[0]
         == Render(rec, Document([], [Table([Row([Cell([p], [])])])])).tables[0].rows[0].cells[0].paragraphs[0]
  {
  }

  // ----- Substitution -----

  /** The `in` guard is redundant: guarded and unguarded folds agree on every text. */
  lemma {:induction false} GuardIsRedundant(rec: Record, text: string)
    ensures SubstituteRun(rec, text) == ReplaceFold(rec, text)
    decreases |rec|
  {
    if |rec| > 0 {
      GuardIsRedundant(rec[1..], SubstituteStep(text, rec[0].0, rec[0].1));
    }
  }

  /** A run that holds no token of any record key comes back unchanged. */
  lemma {:induction false} NoTokenRunUnchanged(rec: Record, text: string)
    requires forall i :: 0 <= i < |rec| ==> !Contains(text, Token(rec[i].0))
    ensures SubstituteRun(rec, text) == text
    decreases |rec|
  {
    if |rec| > 0 {
      NoTokenRunUnchanged(rec[1..], text);
    }
  }

  /** A run with no `{`, or no `}`, cannot hold a token. */
  lemma NoBraceNoToken(text: string, key: string)
    requires '{' !in text || '}' !in text
    ensures !Contains(text, Token(key))
  {
    ContainsIffOccurs(text, Token(key));
    forall i: nat ensures !OccursAt(text, Token(key), i) {
    }
  }

  /** A run with no `{` (or no `}`) passes through any record unchanged. */
  lemma {:induction false} BracelessRunUnchanged(rec: Record, text: string)
    requires '{' !in text || '}' !in text
    ensures SubstituteRun(rec, text) == text
  {
    forall i | 0 <= i < |rec| ensures !Contains(text, Token(rec[i].0)) {
      NoBraceNoToken(text, rec[i].0);
    }
    NoTokenRunUnchanged(rec, text);
  }

  /** No brace in `s`. */
  predicate Braceless(s: string)
  {
    '{' !in s && '}' !in s
  }

  /**
   A token split across two runs is substituted in neither: for any record,
   the two halves of `{key}` cut anywhere strictly inside come back as they
   were, provided `key` itself holds no brace.
   */
  lemma SplitTokenNotSubstituted(rec: Record, key: string, cut: nat)
    requires Braceless(key)
    requires 0 < cut < |Token(key)|
    ensures SubstituteRun(rec, Token(key)[..cut]) == Token(key)[..cut]
    ensures SubstituteRun(rec, Token(key)[cut..]) == Token(key)[cut..]
  {
    var t := Token(key);
    assert '}' !in t[..cut] by {
      forall j | 0 <= j < cut ensures t[..cut][j] != '}' {
        if j > 0 {
          assert t[j] == key[j - 1];
        }
      }
    }
    assert '{' !in t[cut..] by {
      forall j | 0 <= j < |t| - cut ensures t[cut..][j] != '{' {
        if cut + j < |t| - 1 {
          assert t[cut + j] == key[cut + j - 1];
        }
      }
    }
    BracelessRunUnchanged(rec, t[..cut]);
    BracelessRunUnchanged(rec, t[cut..]);
  }

  /**
   A lone placeholder whose name is not a record key survives verbatim,
   provided the name holds no brace (no other token fits inside it).
   */
  lemma UnknownPlaceholderSurvives(rec: Record, key: string)
    requires Braceless(key)
    requires key !in Keys(rec)
    ensures SubstituteRun(rec, Token(key)) == Token(key)
  {
    forall i | 0 <= i < |rec| ensures !Contains(Token(key), Token(rec[i].0)) {
      OtherTokenAbsent(key, rec[i].0);
    }
    NoTokenRunUnchanged(rec, Token(key));
  }

  /** The only token that fits in `{key}`, when `key` has no brace, is `{key}` itself. */
  lemma OtherTokenAbsent(key: string, k: string)
    requires Braceless(key) && k != key
    ensures !Contains(Token(key), Token(k))
  {
    ContainsIffOccurs(Token(key), Token(k));
    forall j: nat ensures !OccursAt(Token(key), Token(k), j) {
      if OccursAt(Token(key), Token(k), j) {
        OnlyTokenInsideToken(key, k, j);
      }
    }
  }

  lemma OnlyTokenInsideToken(key: string, k: string, j: nat)
    requires Braceless(key)
    requires OccursAt(Token(key), Token(k), j)
    ensures k == key
  {
    var t := Token(key);
    var u := Token(k);
    assert t[j] == '{';
    assert t[|u| - 1] == '}';
    assert t == u;
  }

  /**
   Two distinct placeholders in one run, in record order, are each replaced
   by their own value, and the text around them is kept, provided no
   surrounding text, key or first value holds a `{` that could start
   another token.
   */
  lemma TwoPlaceholdersFill(a: string, k1: string, b: string, k2: string, c: string, v1: string, v2: string)
    requires Braceless(k1) && Braceless(k2) && k1 != k2
    requires '{' !in a && '{' !in b && '{' !in c && '{' !in v1
    ensures SubstituteRun([(k1, v1), (k2, v2)], a + Token(k1) + b + Token(k2) + c) == a + v1 + b + v2 + c
  {
    var rec := [(k1, v1), (k2, v2)];
    var s := a + Token(k1) + b + Token(k2) + c;
    GuardIsRedundant(rec, s);
    ReplaceFoldTwo(k1, v1, k2, v2, s);
    FillFirst(a, k1, b, k2, c, v1);
    FillSecond(a + v1 + b, k2, c, v2);
  }

  lemma ReplaceFoldTwo(k1: string, v1: string, k2: string, v2: string, s: string)
    ensures ReplaceFold([(k1, v1), (k2, v2)], s) == ReplaceAll(ReplaceAll(s, Token(k1), v1), Token(k2), v2)
  {
    var rec := [(k1, v1), (k2, v2)];
    var r1 := ReplaceAll(s, Token(k1), v1);
    assert rec[1..] == [(k2, v2)];
    assert ReplaceFold(rec, s) == ReplaceFold([(k2, v2)], r1);
    assert [(k2, v2)][1..] == [];
  }

  lemma FillFirst(a: string, k1: string, b: string, k2: string, c: string, v1: string)
    requires Braceless(k1) && Braceless(k2) && k1 != k2
    requires '{' !in a && '{' !in b && '{' !in c
    ensures ReplaceAll(a + Token(k1) + b + Token(k2) + c, Token(k1), v1) == a + v1 + b + Token(k2) + c
  {
    var t1, t2 := Token(k1), Token(k2);
    var tail := b + t2 + c;
    Assoc5(a, t1, b, t2, c);
    ReplaceAllCopiesPrefix(a, t1 + tail, t1, v1);
    ReplaceAllAtPattern(tail, t1, v1);
    KeepTail(b, k1, k2, c, v1);
    Assoc5(a, v1, b, t2, c);
  }

  lemma Assoc5(a: string, x: string, b: string, y: string, c: string)
    ensures a + x + b + y + c == a + (x + (b + y + c))
  {
  }

  /** Brace-free text, then another token, then brace-free text: kept by the scan for `{k1}`. */
  lemma KeepTail(b: string, k1: string, k2: string, c: string, v1: string)
    requires Braceless(k1) && Braceless(k2) && k1 != k2
    requires '{' !in b && '{' !in c
    ensures ReplaceAll(b + Token(k2) + c, Token(k1), v1) == b + Token(k2) + c
  {
    assert b + Token(k2) + c == b + (Token(k2) + c);
    ReplaceAllCopiesPrefix(b, Token(k2) + c, Token(k1), v1);
    KeepOtherToken(k1, k2, c, v1);
  }

  /** A different token followed by brace-free text is kept by the scan for `{k1}`. */
  lemma KeepOtherToken(k1: string, k2: string, c: string, v1: string)
    requires Braceless(k1) && Braceless(k2) && k1 != k2 && '{' !in c
    ensures ReplaceAll(Token(k2) + c, Token(k1), v1) == Token(k2) + c
  {
    var t1, t2 := Token(k1), Token(k2);
    TokenNotPrefix(k1, k2, c);
    ReplaceAllSkip(t2 + c, t1, v1);
    var rest := (t2 + c)[1..];
    assert rest == (k2 + "}" + c) + "";
    ReplaceAllCopiesPrefix(k2 + "}" + c, "", t1, v1);
    assert [(t2 + c)[0]] + rest == t2 + c;
  }

  lemma FillSecond(m: string, k2: string, c: string, v2: string)
    requires Braceless(k2) && '{' !in m && '{' !in c
    ensures ReplaceAll(m + Token(k2) + c, Token(k2), v2) == m + v2 + c
  {
    var t2 := Token(k2);
    assert m + t2 + c == m + (t2 + c);
    ReplaceAllCopiesPrefix(m, t2 + c, t2, v2);
    ReplaceAllAtPattern(c, t2, v2);
    assert c == c + "";
    ReplaceAllCopiesPrefix(c, "", t2, v2);
  }

  /** A token is never a prefix of a different token, whatever follows the latter. */
  lemma TokenNotPrefix(k1: string, k2: string, c: string)
    requires Braceless(k1) && Braceless(k2) && k1 != k2
    ensures !(Token(k1) <= Token(k2) + c)
  {
    var t1, u := Token(k1), Token(k2) + c;
    if |t1| <= |u| {
      var d := DifferAt(k1, k2, c);
      assert t1[d] != u[d];
    }
  }

  /** A position inside `{k1}` where it and `{k2}` followed by `c` differ. */
  lemma DifferAt(k1: string, k2: string, c: string) returns (d: nat)
    requires Braceless(k1) && Braceless(k2) && k1 != k2
    requires |Token(k1)| <= |Token(k2) + c|
    ensures d < |Token(k1)| && Token(k1)[d] != (Token(k2) + c)[d]
  {
    var t1, t2, u := Token(k1), Token(k2), Token(k2) + c;
    if |k1| < |k2| {
      d := |k1| + 1;
      assert t1[d] == '}';
      assert u[d] == k2[d - 1];
    } else if |k1| > |k2| {
      d := |k2| + 1;
      assert u[d] == '}';
      assert t1[d] == k1[d - 1];
    } else {
      var i :| 0 <= i < |k1| && k1[i] != k2[i];
      d := i + 1;
      assert t1[d] == k1[i];
      assert u[d] == k2[i];
    }
  }

  /** Rendering with an empty record (a header row with no cells paired) changes nothing. */
  lemma EmptyRecordIsIdentity(doc: Document)
    ensures Render([], doc) == doc
  {
    EmptyRecordParagraphs(doc.paragraphs);
    forall t | 0 <= t < |doc.tables| ensures RenderTable([], doc.tables[t]) == doc.tables[t] {
      var tab := doc.tables[t];
      forall w | 0 <= w < |tab.rows| ensures RenderRow([], tab.rows[w]) == tab.rows[w] {
        var row := tab.rows[w];
        forall c | 0 <= c < |row.cells| ensures RenderCell([], row.cells[c]) == row.cells[c] {
          EmptyRecordParagraphs(row.cells[c].paragraphs);
        }
      }
    }
  }

  lemma EmptyRecordParagraphs(ps: seq<Paragraph>)
    ensures RenderParagraphs([], ps) == ps
  {
    forall i | 0 <= i < |ps| ensures RenderParagraph([], ps[i]) == ps[i] {
      assert RenderParagraph([], ps[i]).runs == ps[i].runs;
    }
  }
}

=== FILE: text.dfy ===
/**
 The Python string operations the slip generator relies on, over `string`
 (a sequence of characters): `pat in s` (generate.py:63) and
 `s.replace(pat, rep)` (generate.py:64). `Find` and `CountOccurrences`
 are reference helpers for `replace` and its length; the generator does
 not call `str.find` or `str.count`. `replace` is modelled for a
 non-empty pattern only, which is the only way the generator calls it:
 its pattern is always a `{key}` token.
 */
module Text {

  datatype Option<T> = None | Some(value: T)

  /** `pat` occurs in `s` starting at index `i`. */
  predicate OccursAt(s: string, pat: string, i: nat)
  {
    i + |pat| <= |s| && s[i..i + |pat|] == pat
  }

  /** Python's `pat in s`: `pat` is a prefix of `s` or of one of its suffixes. */
  predicate Contains(s: string, pat: string)
    decreases |s|
  {
    pat <= s || (|s| > 0 && Contains(s[1..], pat))
  }

  /** An occurrence in `s[1..]` is an occurrence in `s`, one position later. */
  lemma {:induction false} OccursAtShift(s: string, pat: string, i: nat)
    requires |s| > 0
    ensures OccursAt(s[1..], pat, i) <==> OccursAt(s, pat, i + 1)
  {
    if i + 1 + |pat| <= |s| {
      assert s[1..][i..i + |pat|] == s[i + 1..i + 1 + |pat|];
    }
  }

  /** `Contains` holds exactly when there is a position where `pat` occurs. */
  lemma {:induction false} ContainsIffOccurs(s: string, pat: string)
    ensures Contains(s, pat) <==> exists i: nat :: OccursAt(s, pat, i)
    decreases |s|
  {
    if pat <= s {
      assert s[0..|pat|] == pat;
      assert OccursAt(s, pat, 0);
    } else if |s| == 0 {
      forall i: nat ensures !OccursAt(s, pat, i) {
      }
    } else {
      ContainsIffOccurs(s[1..], pat);
      if Contains(s[1..], pat) {
        var i: nat :| OccursAt(s[1..], pat, i);
        OccursAtShift(s, pat, i);
      } else {
        forall i: nat ensures !OccursAt(s, pat, i) {
          if i > 0 {
            OccursAtShift(s, pat, i - 1);
          }
        }
      }
    }
  }

  /** Python's `s.find(pat)`: the leftmost position where `pat` occurs, or `None` (Python's -1). */
  function Find(s: string, pat: string): (r: Option<nat>)
    ensures r.None? <==> !Contains(s, pat)
    ensures r.Some? ==> OccursAt(s, pat, r.value)
    ensures r.Some? ==> forall j: nat :: j < r.value ==> !OccursAt(s, pat, j)
    decreases |s|
  {
    if pat <= s then
      assert s[0..|pat|] == pat;
      Some(0)
    else if |s| == 0 then None
    else
      match Find(s[1..], pat)
      case None => None
      case Some(i) =>
        OccursAtShift(s, pat, i);
        assert forall j: nat :: 0 < j <= i ==> !OccursAt(s, pat, j) by {
          forall j: nat | 0 < j <= i ensures !OccursAt(s, pat, j) {
            OccursAtShift(s, pat, j - 1);
          }
        }
        Some(i + 1)
  }

  /**
   Python's `s.replace(pat, rep)` for a non-empty `pat`: scanning from the
   left, every occurrence of `pat` that does not overlap an occurrence
   already replaced is rewritten to `rep`; everything else is copied.
   */
  function ReplaceAll(s: string, pat: string, rep: string): (r: string)
    requires |pat| > 0
    ensures !Contains(s, pat) ==> r == s
    ensures rep == pat ==> r == s
    decreases |s|
  {
    if |s| == 0 then ""
    else if pat <= s then
      assert s == pat + s[|pat|..];
      rep + ReplaceAll(s[|pat|..], pat, rep)
    else
      [s[0]] + ReplaceAll(s[1..], pat, rep)
  }

  /** Python's `s.count(pat)` for a non-empty `pat`: the number of non-overlapping occurrences, left to right. */
  function CountOccurrences(s: string, pat: string): (n: nat)
    requires |pat| > 0
    ensures n > 0 <==> Contains(s, pat)
    decreases |s|
  {
    if |s| == 0 then 0
    else if pat <= s then 1 + CountOccurrences(s[|pat|..], pat)
    else CountOccurrences(s[1..], pat)
  }

  /**
   The reference reading of `replace`, as CPython performs it: find the
   leftmost occurrence, splice in `rep`, and continue after the occurrence.
   */
  function SpliceAll(s: string, pat: string, rep: string): string
    requires |pat| > 0
    decreases |s|
  {
    match Find(s, pat)
    case None => s
    case Some(i) => s[..i] + rep + SpliceAll(s[i + |pat|..], pat, rep)
  }

  /** The left-to-right scan and the find-and-splice loop compute the same string. */
  lemma {:induction false} ReplaceAllIsSpliceAll(s: string, pat: string, rep: string)
    requires |pat| > 0
    ensures ReplaceAll(s, pat, rep) == SpliceAll(s, pat, rep)
    decreases |s|
  {
    var f := Find(s, pat);
    if f.None? {
      assert SpliceAll(s, pat, rep) == s;
    } else if f.value == 0 {
      var rest := s[|pat|..];
      assert pat <= s;
      ReplaceAllIsSpliceAll(rest, pat, rep);
      SpliceAllUnfold(s, pat, rep, 0, rest);
      assert s[..0] + rep == rep;
    } else {
      var i := f.value;
      FindTail(s, pat, i);
      ReplaceAllIsSpliceAll(s[1..], pat, rep);
      ReplaceAllSkip(s, pat, rep);
      SpliceAllSkip(s, pat, rep, i);
    }
  }

  /** One step of the splice loop, at the leftmost occurrence `i`. */
  lemma {:induction false} SpliceAllUnfold(s: string, pat: string, rep: string, i: nat, rest: string)
    requires |pat| > 0 && Find(s, pat) == Some(i) && rest == s[i + |pat|..]
    ensures SpliceAll(s, pat, rep) == s[..i] + rep + SpliceAll(rest, pat, rep)
  {
  }

  /** If the leftmost occurrence is not at the front, `pat` is not a prefix and `find` on the tail gives one less. */
  lemma {:induction false} FindTail(s: string, pat: string, i: nat)
    requires |pat| > 0 && Find(s, pat) == Some(i) && i > 0
    ensures !(pat <= s)
    ensures Find(s[1..], pat) == Some(i - 1)
  {
  }

  /** Scanning past a position where `pat` does not start copies that character. */
  lemma {:induction false} ReplaceAllSkip(s: string, pat: string, rep: string)
    requires |pat| > 0 && |s| > 0 && !(pat <= s)
    ensures ReplaceAll(s, pat, rep) == [s[0]] + ReplaceAll(s[1..], pat, rep)
  {
  }

  /** When the leftmost occurrence is not at the front, splicing copies the first character and continues. */
  lemma {:induction false} SpliceAllSkip(s: string, pat: string, rep: string, i: nat)
    requires |pat| > 0 && Find(s, pat) == Some(i) && i > 0
    requires Find(s[1..], pat) == Some(i - 1)
    ensures SpliceAll(s, pat, rep) == [s[0]] + SpliceAll(s[1..], pat, rep)
  {
    var rest := s[i + |pat|..];
    var tail := SpliceAll(rest, pat, rep);
    TailSlices(s, i, |pat|);
    SpliceAllUnfold(s, pat, rep, i, rest);
    SpliceAllUnfold(s[1..], pat, rep, i - 1, rest);
    Regroup(s[0], s[1..][..i - 1], rep, tail);
  }

  lemma Regroup(c: char, x: string, y: string, z: string)
    ensures ([c] + x) + y + z == [c] + (x + y + z)
  {
  }

  /** How slices of `s[1..]` line up with slices of `s`. */
  lemma TailSlices(s: string, i: nat, k: nat)
    requires 0 < i && i + k <= |s|
    ensures s[1..][i - 1 + k..] == s[i + k..]
    ensures s[..i] == [s[0]] + s[1..][..i - 1]
  {
  }

  lemma MulSucc(c: int, d: int)
    ensures (1 + c) * d == d + c * d
  {
  }

  lemma MulNonZero(c: int, d: int)
    requires c != 0 && d != 0
    ensures c * d != 0
  {
  }

  /** `replace` changes the length by `rep`'s excess over `pat` once per occurrence counted by `count`. */
  lemma {:induction false} ReplaceAllLength(s: string, pat: string, rep: string)
    requires |pat| > 0
    ensures |ReplaceAll(s, pat, rep)| == |s| + CountOccurrences(s, pat) * (|rep| - |pat|)
    decreases |s|
  {
    if |s| == 0 {
    } else if pat <= s {
      ReplaceAllLength(s[|pat|..], pat, rep);
      var c := CountOccurrences(s[|pat|..], pat);
      MulSucc(c, |rep| - |pat|);
    } else {
      ReplaceAllLength(s[1..], pat, rep);
    }
  }

  /**
   `replace` returns its input unchanged exactly when the pattern does not
   occur or the replacement is the pattern itself.
   */
  lemma {:induction false} ReplaceAllUnchangedIff(s: string, pat: string, rep: string)
    requires |pat| > 0
    ensures ReplaceAll(s, pat, rep) == s <==> (!Contains(s, pat) || rep == pat)
    decreases |s|
  {
    if Contains(s, pat) && rep != pat {
      if |rep| != |pat| {
        ReplaceAllLength(s, pat, rep);
        assert CountOccurrences(s, pat) > 0;
        MulNonZero(CountOccurrences(s, pat), |rep| - |pat|);
      } else if pat <= s {
        var r := ReplaceAll(s, pat, rep);
        assert r[..|rep|] == rep;
        assert s[..|pat|] == pat;
      } else {
        ReplaceAllUnchangedIff(s[1..], pat, rep);
        var r := ReplaceAll(s, pat, rep);
        assert r[1..] == ReplaceAll(s[1..], pat, rep);
      }
    }
  }

  /** Text before which `pat` cannot start (it lacks `pat`'s first character) is copied as is. */
  lemma {:induction false} ReplaceAllCopiesPrefix(a: string, b: string, pat: string, rep: string)
    requires |pat| > 0 && pat[0] !in a
    ensures ReplaceAll(a + b, pat, rep) == a + ReplaceAll(b, pat, rep)
    decreases |a|
  {
    if |a| == 0 {
      assert a + b == b;
    } else {
      assert (a + b)[0] == a[0];
      assert !(pat <= a + b);
      assert (a + b)[1..] == a[1..] + b;
      ReplaceAllSkip(a + b, pat, rep);
      ReplaceAllCopiesPrefix(a[1..], b, pat, rep);
      assert [a[0]] + (a[1..] + ReplaceAll(b, pat, rep)) == a + ReplaceAll(b, pat, rep);
    }
  }

  /** An occurrence at the front is replaced and the scan resumes right after it. */
  lemma ReplaceAllAtPattern(b: string, pat: string, rep: string)
    requires |pat| > 0
    ensures ReplaceAll(pat + b, pat, rep) == rep + ReplaceAll(b, pat, rep)
  {
    assert pat <= pat + b;
    assert (pat + b)[|pat|..] == b;
  }
}
